=== FILE: README.md ===
# eco-synk front-end logic, modelled in Dafny

A verified model of the deterministic logic inside the eco-synk citizen
reporting app. Users photograph trash, an image-analysis service scores it,
and campaigns and reports are shown on a map by urgency. The model covers:

- **Campaigns** (`campaign_marker.dfy`): the campaign priority classifier
  `getPriority`. It is first-match-wins over status, whole days until the
  event and the volunteer fill ratio. The module also covers the marker
  icon's colour, size, font and glyph, the badge colour and label lookups,
  and the "Join Campaign" guard. Time is integer milliseconds. Days until
  the event is a ceiling division by 86 400 000. The ratio test
  `count / goal < 0.3` is decided as `10 * count < 3 * goal`.
- **CampaignMapView** (`campaign_map.dfy`): `MapUpdater`'s choice between
  fitting bounds and setting the view, and the points that go into the
  bounds. Also the user-location marker and accuracy-circle guards, and which
  marker is drawn as selected.
- **ReportFlow** (`camera_page.dfy`): the camera screen's capture / retake /
  submit / confirm flow, as a transition system over its four flags. Each
  button is enabled only while it is rendered. The analysis call's outcome
  is a parameter. With the corrected settle step (see "## Findings"), the
  model proves that the reachable flag combinations are exactly the four
  consistent stages (Idle, Captured, Analyzing, Submitted), in both
  directions. For the code as written the same holds only as long as no
  call resolves with null (`ReachableAsWrittenIsConsistent`). A null
  resolution reaches a fifth combination, which is stuck: an image is held,
  `submitted` is set and there is no result (`NullResolutionIsStuck`). The
  model also proves that exactly one view is on screen in each consistent
  stage, and that the point award is `score * 5`.
- **TrashMap** (`map_page.dfy`): the report filter, the per-tier tallies,
  the colour and emoji lookups with their defaults, and the select/deselect
  toggle.
- **Feed** (`feed_page.dfy`): `toggleLike`. It flips one activity's `liked`
  flag and moves its counter by one. Nothing else changes, and toggling
  twice restores the list.
- **Nullable** (`nullable.dfy`): `Option`, standing for `null`/`undefined`.

Points where the code may surprise a reader; the model does what the code
does:

- The fitted map bounds take the `center` prop, not the user's location,
  and only when both of its coordinates are non-zero.
- The analysis response is not validated, and no result records whether it
  came from the fallback.
- Actions that make no sense in the current state are not rejected with an
  error. Their buttons are simply not rendered, so the model expresses this
  as enabledness, not as error results.
- A volunteer goal of 0 is not excluded. In JavaScript `n / 0` is Infinity
  or NaN, and both compare false against 0.3 and 0.6, so the ratio test is
  false. `RatioBelow` models exactly that.

One place where the transition system departs from the code:

- In the code only a thrown error leads to the fallback result;
  `ReportFlow.SettleAsWritten` and `ReportFlow.StepAsWritten` model that.
  The transition system `ReportFlow.Step` uses the corrected settle step
  `ReportFlow.Settle`, which also falls back when the call resolves with
  null (see "## Findings"). `ReportFlow.RunAsWrittenAgrees` shows that the
  two systems agree on every event sequence without a null resolution.

## Model

| member | source | states |
|---|---|---|
| Campaigns.DaysUntil | frontend/src/components/map/CampaignMarker.jsx:82-84 | the result is the ceiling of (event − now) / one day: `(d−1)·day < diff ≤ d·day`, negative for past events |
| Campaigns.Classify | frontend/src/components/map/CampaignMarker.jsx:78-89 | the tier is `completed` exactly when status is `'completed'`; the name is always one of high, medium, low, completed |
| Campaigns.CompletedWins | frontend/src/components/map/CampaignMarker.jsx:79 | a completed campaign classifies `completed` whatever its date, volunteer count or goal |
| Campaigns.ClassifyRules | frontend/src/components/map/CampaignMarker.jsx:81-88 | for an open campaign: high ⇔ days ≤ 3 or ratio < 0.3 (past events included); medium ⇔ neither but days ≤ 7 or ratio < 0.6; low ⇔ days > 7 and ratio ≥ 0.6 |
| Campaigns.ClassifyIsMaxUrgency | frontend/src/components/map/CampaignMarker.jsx:86-88 | the first-match chain equals the larger of a days-only and a ratio-only urgency |
| Campaigns.RatioBelow | frontend/src/components/map/CampaignMarker.jsx:81-87 | the ratio test `count / goal < k/10` by cross-multiplication; false when the goal is 0 (JavaScript's Infinity or NaN compares false); an empty team is below every positive threshold |
| Campaigns.RatioBelowIsQuotient | frontend/src/components/map/CampaignMarker.jsx:81 | with a positive goal, the cross-multiplied test agrees with the real quotient `count/goal < k/10` |
| Campaigns.FewerDaysNotLessUrgent | frontend/src/components/map/CampaignMarker.jsx:82-88 | moving the event earlier, other inputs fixed, never gives a less urgent tier |
| Campaigns.LowerRatioNotLessUrgent | frontend/src/components/map/CampaignMarker.jsx:81-88 | a lower volunteer ratio, other inputs fixed, never gives a less urgent tier |
| Campaigns.DaysUntilMonotone | frontend/src/components/map/CampaignMarker.jsx:82-84 | a later event date never gives fewer days until the event |
| Campaigns.SoonButStaffedIsHigh | frontend/src/components/map/CampaignMarker.jsx:86 | two days away with 9 of 10 volunteers is high: the first matching rule wins |
| Campaigns.PastEventIsHigh | frontend/src/components/map/CampaignMarker.jsx:82-86 | an open campaign whose event time has passed has a non-positive day count and is high |
| Campaigns.MediumAndLowExamples | frontend/src/components/map/CampaignMarker.jsx:86-88 | ten days away with 5 of 10 volunteers is medium; twenty days away with 8 of 10 is low |
| Campaigns.CreateMarkerIcon | frontend/src/components/map/CampaignMarker.jsx:27-66 | a known tier gets its own palette colour and an unknown one the `low` blue; size 35 when selected, else 25; 14 px font exactly when selected; glyph ✓ exactly for `completed`, else ! |
| Campaigns.PriorityColor | frontend/src/components/map/CampaignMarker.jsx:103-111 | the badge colour is defined exactly for the four tier names |
| Campaigns.PriorityLabel | frontend/src/components/map/CampaignMarker.jsx:113-121 | the badge label is defined exactly for the four tier names |
| Campaigns.ClassifiedMarkerIsDefined | frontend/src/components/map/CampaignMarker.jsx:91-92 | a classified campaign's marker needs no fallback colour, its badge colour and label are defined, and its glyph is ✓ exactly when it is completed |
| Campaigns.CanJoin | frontend/src/components/map/CampaignMarker.jsx:229 | "Join Campaign" is rendered exactly when the status is the string `'active'` |
| Campaigns.JoinableIsOpen | frontend/src/components/map/CampaignMarker.jsx:229 | a campaign offered "Join Campaign" (status exactly `'active'`) is never classified completed |
| CampaignMapView.HasTruthyCoords | frontend/src/components/map/CampaignMap.jsx:30 | `p && p.lat && p.lng`: present, with both coordinates non-zero |
| CampaignMapView.BoundsPoints | frontend/src/components/map/CampaignMap.jsx:23-32 | the bounds points are every campaign's position in order, then the centre exactly when both its coordinates are truthy |
| CampaignMapView.MapUpdate | frontend/src/components/map/CampaignMap.jsx:17-38 | bounds are fitted exactly when fitting is on and there are campaigns, over exactly the bounds points (so a centre with a zero coordinate stays out) and padded by 0.1; otherwise the view is set to the given centre and zoom unchanged, or nothing happens without a centre |
| CampaignMapView.FitCoversCampaigns | frontend/src/components/map/CampaignMap.jsx:21-34 | fitting covers every campaign's position, and every fitted point is a campaign position or the centre |
| CampaignMapView.CenterInBoundsIffTruthy | frontend/src/components/map/CampaignMap.jsx:30-32 | the centre joins the bounds exactly when lat and lng are both non-zero; a zero coordinate leaves only the campaigns |
| CampaignMapView.NoFitSetsView | frontend/src/components/map/CampaignMap.jsx:35-37 | without fitting, or with no campaigns, the view is set to the centre and zoom, with no error |
| CampaignMapView.DefaultPropsSetView | frontend/src/components/map/CampaignMap.jsx:104-107 | with the default props (Dubai at 25.2048, 55.2708, zoom 11, no fitting) the view is set to Dubai at zoom 11 whatever the campaigns |
| CampaignMapView.UserLocationMarker | frontend/src/components/map/CampaignMap.jsx:44-95 | nothing is drawn without a location or with a falsy lat/lng; otherwise a marker at the location, with a circle exactly when accuracy is truthy, of that radius |
| CampaignMapView.IsSelected | frontend/src/components/map/CampaignMap.jsx:158 | a marker is selected exactly when a campaign is selected and its id equals the marker's |
| CampaignMapView.MarkerIcons | frontend/src/components/map/CampaignMap.jsx:154-164 | one icon per campaign, large exactly when its id equals the selected campaign's id, ✓ exactly when completed |
| CampaignMapView.AtMostOneSelected | frontend/src/components/map/CampaignMap.jsx:158 | with unique ids at most one marker is drawn at the selected size |
| ReportFlow.Capture | frontend/src/components/CameraPage.jsx:32-37 | without a webcam handle the state is unchanged; with one only the image changes, to the screenshot |
| ReportFlow.Retake | frontend/src/components/CameraPage.jsx:39-43 | clears image, result and submitted; leaves `isAnalyzing` as it was |
| ReportFlow.ConfirmSubmission | frontend/src/components/CameraPage.jsx:70-74 | clears image, result and submitted; leaves `isAnalyzing` as it was |
| ReportFlow.RetakeIsConfirm | frontend/src/components/CameraPage.jsx:39-74 | retake and confirm give the same state, retake is idempotent, and from any consistent settled state both return to the start |
| ReportFlow.BeginSubmit | frontend/src/components/CameraPage.jsx:45-46 | submitting first sets `isAnalyzing` and changes nothing else |
| ReportFlow.OutcomeResult | frontend/src/components/CameraPage.jsx:48-67 | the result is the service's value when it resolves with one, the fixed fallback when it throws |
| ReportFlow.Settle | frontend/src/components/CameraPage.jsx:48-67 | once the call settles: a result is held, `isAnalyzing` is false, `submitted` is true, the image is kept |
| ReportFlow.SettleAsWritten | frontend/src/components/CameraPage.jsx:48-67 | as written, a resolved value is stored whatever it is (even null); a throw stores the fallback |
| ReportFlow.SettleAgreesUnlessNull | frontend/src/components/CameraPage.jsx:49-56 | the corrected and as-written settle steps agree on every outcome except a null resolution |
| ReportFlow.SubmitReport | frontend/src/components/CameraPage.jsx:45-68 | a whole submit ends not analysing and submitted, with the service's result on success and the fallback on a throw |
| ReportFlow.Points | frontend/src/components/CameraPage.jsx:216 | the award is a multiple of 5 from which the score is recovered by dividing by 5 |
| ReportFlow.PointsRange | frontend/src/components/CameraPage.jsx:216 | scores 1–10 earn 5–50 points; the fallback earns 35 |
| ReportFlow.CaptureShown | frontend/src/components/CameraPage.jsx:109-141 | the webcam and capture button are rendered exactly while no image is held |
| ReportFlow.AnalyzingShown | frontend/src/components/CameraPage.jsx:152 | the analysing overlay is rendered exactly while an image is held and `isAnalyzing` is set |
| ReportFlow.SuccessShown | frontend/src/components/CameraPage.jsx:170 | the success card is rendered exactly while an image is held, `submitted` is set, a result is held and `isAnalyzing` is clear |
| ReportFlow.ActionsShown | frontend/src/components/CameraPage.jsx:234 | Retake and "Analyze & Submit" are rendered exactly while an image is held and neither `submitted` nor `isAnalyzing` is set |
| ReportFlow.ShownPoints | frontend/src/components/CameraPage.jsx:170-216 | points are shown exactly when the success card is, and are the held result's score times 5 |
| ReportFlow.Enabled | frontend/src/components/CameraPage.jsx:109-254 | each button's event can fire only while that button is rendered; the call settles only while `isAnalyzing` is set |
| ReportFlow.Step | frontend/src/components/CameraPage.jsx:32-74 | each event runs its handler: capture, retake, the start of submit, the settle step, confirm |
| ReportFlow.StepAsWritten | frontend/src/components/CameraPage.jsx:32-74 | each event runs its handler as written; the settle step stores whatever the call resolves with |
| ReportFlow.Run | frontend/src/components/CameraPage.jsx:109-254 | replays events through the corrected system, failing at the first event whose control is not rendered (or, for settling, with no call in flight) |
| ReportFlow.RunAsWritten | frontend/src/components/CameraPage.jsx:109-254 | the same replay through the handlers as written |
| ReportFlow.StageOf | frontend/src/components/CameraPage.jsx:109-234 | every consistent flag combination is the flag encoding of one of the four stages |
| ReportFlow.ConsistentInvariants | frontend/src/components/CameraPage.jsx:152-234 | in a consistent state: analysing ⇒ image held and not submitted; submitted ⇒ result held and not analysing; result held ⇒ submitted |
| ReportFlow.StepPreservesConsistent | frontend/src/components/CameraPage.jsx:109-254 | every step enabled by the rendered buttons, or by a call in flight, keeps the flags consistent |
| ReportFlow.RunPreservesConsistent | frontend/src/components/CameraPage.jsx:109-254 | any sequence of enabled steps from a consistent state ends in a consistent state |
| ReportFlow.ReachableIsConsistent | frontend/src/components/CameraPage.jsx:13-17 | every state reachable from the initial flags through enabled steps is consistent |
| ReportFlow.RunAsWrittenAgrees | frontend/src/components/CameraPage.jsx:45-68 | the code as written and the corrected system replay every event sequence without a null resolution identically |
| ReportFlow.ReachableAsWrittenIsConsistent | frontend/src/components/CameraPage.jsx:13-17 | for the code as written, every state reached through enabled events without a null resolution is consistent |
| ReportFlow.ConsistentIsReachable | frontend/src/components/CameraPage.jsx:109-254 | conversely, every consistent flag combination is reached from the start by an explicit event sequence |
| ReportFlow.ExactlyOneView | frontend/src/components/CameraPage.jsx:109-234 | in a consistent state exactly one of capture button, analysing overlay, success card and action buttons is rendered |
| ReportFlow.SuccessShownIff | frontend/src/components/CameraPage.jsx:170 | in a consistent state the success card shows exactly when submitted, result held and not analysing |
| ReportFlow.NoDeadEnd | frontend/src/components/CameraPage.jsx:109-254 | every consistent state has some enabled event |
| ReportFlow.CaptureWithoutWebcam | frontend/src/components/CameraPage.jsx:32-37 | a capture click without a webcam handle leaves the state unchanged |
| ReportFlow.ThrowAwards35 | frontend/src/components/CameraPage.jsx:58-67 | from a captured image, a submit whose call throws ends on the success card with the fallback result and 35 points |
| ReportFlow.RetakeWhileAnalyzingBreaksFlags | frontend/src/components/CameraPage.jsx:39-43 | retake during analysis, were it offered, would leave `isAnalyzing` set with no image: the guards are needed |
| ReportFlow.NullResolutionIsStuck | frontend/src/components/CameraPage.jsx:49-56 | as written, a call resolving with null reaches a state with no view and no enabled event |
| TrashMap.CountPriority | frontend/src/components/MapPage.jsx:107-109 | a tier's tally never exceeds the number of reports |
| TrashMap.OnlyPriority | frontend/src/components/MapPage.jsx:102 | a report is kept exactly when it is in the list and has the given priority |
| TrashMap.FilterReports | frontend/src/components/MapPage.jsx:100-103 | `'all'` returns the list itself; any other filter keeps exactly the reports with that priority |
| TrashMap.FilterKeepsOrder | frontend/src/components/MapPage.jsx:100-103 | the filtered list is a subsequence of the original: order is preserved |
| TrashMap.OnlyPriorityAppend | frontend/src/components/MapPage.jsx:102 | filtering a concatenation is the concatenation of the filtered parts |
| TrashMap.FilterLengthIsCount | frontend/src/components/MapPage.jsx:100-109 | a tier filter's length is the number of reports with that priority |
| TrashMap.ComputeStats | frontend/src/components/MapPage.jsx:105-110 | total is the number of reports, and each tier tally equals the length of that tier's filter |
| TrashMap.TalliesBounded | frontend/src/components/MapPage.jsx:105-110 | high + medium + low ≤ total, with equality exactly when every report has one of the three priorities |
| TrashMap.PriorityColor | frontend/src/components/MapPage.jsx:57-68 | the grey default is returned exactly for a priority other than high, medium, low |
| TrashMap.PriorityEmoji | frontend/src/components/MapPage.jsx:70-81 | ⚪ is returned exactly for a priority other than high, medium, low |
| TrashMap.StatusEmoji | frontend/src/components/MapPage.jsx:83-94 | ❓ is returned exactly for a status other than pending, in-progress, cleaned |
| TrashMap.LookupsDistinguishKnownKeys | frontend/src/components/MapPage.jsx:57-94 | distinct known keys get distinct colours and emoji |
| TrashMap.Highlighted | frontend/src/components/MapPage.jsx:185-189 | a card is highlighted exactly when a report is selected and its id equals the card's id |
| TrashMap.ClickReport | frontend/src/components/MapPage.jsx:183-186 | clicking deselects exactly when the clicked report's id is the selected one's, and otherwise selects the clicked report |
| TrashMap.ClickFlipsHighlight | frontend/src/components/MapPage.jsx:183-189 | a click flips the clicked card's highlight, un-highlights every card with another id, and two clicks from nothing return to nothing |
| Feed.ToggleOne | frontend/src/components/FeedPage.jsx:75-82 | another id is untouched; the matching one flips `liked`, its `likes` goes down 1 if liked and up 1 otherwise, and no other field changes |
| Feed.ToggleLike | frontend/src/components/FeedPage.jsx:72-85 | length and order are kept; every activity with the id is flipped as above and every other activity is unchanged |
| Feed.ToggleKeepsOthersLikes | frontend/src/components/FeedPage.jsx:79 | likes not counting the viewer's own are invariant under a toggle |
| Feed.ToggleTwiceRestores | frontend/src/components/FeedPage.jsx:72-85 | toggling the same id twice restores the original list |
| Feed.ToggleUnknownIdIsIdentity | frontend/src/components/FeedPage.jsx:73-83 | an id matching no activity leaves the list unchanged |

## Findings

| source | as written | input that shows it | evidently intended | confidence | as-written member | corrected member |
|---|---|---|---|---|---|---|
| frontend/src/components/CameraPage.jsx:49-56 | the value the analysis call resolves with is stored unchecked; after it `submitted` is true and `isAnalyzing` false | `analyzeTrashImage` resolves with `null` or `undefined`: the success card (guarded by `analysisResult`), the action buttons (guarded by `!submitted`) and the capture button (guarded by `!capturedImage`) are all hidden, and no control on the camera screen can leave the state (switching tabs remounts the screen, App.jsx:36-39) | a missing result is treated like a failed call and replaced by the fallback, as the `analysisResult` guard at line 170 anticipates | low: the analysis service is not part of this model, so whether it can resolve null is unknown; not executed | ReportFlow.NullResolutionIsStuck | ReportFlow.Settle |

`ReportFlow.SettleAsWritten` is the code as written, and
`ReportFlow.SettleAgreesUnlessNull` shows that it differs from the corrected
`ReportFlow.Settle` only on a null resolution. The transition system uses
`Settle`. With it, `ReportFlow.RunPreservesConsistent` and
`ReportFlow.NoDeadEnd` prove that every reachable state is one of the four
stages and always has an enabled event.

## Left out

- The analysis service `analyzeTrashImage`: it is not part of this model. Its outcome is the `GatewayOutcome` parameter. The 2 s delay after it is folded into the settle step.
- Webcam access, window resize listeners and viewport height (CameraPage.jsx:21-30): device and DOM I/O. The webcam handle and its screenshot are the `Webcam` parameter.
- The clock: `new Date()` is the `now` parameter, in milliseconds.
- Campaigns.DaysUntil: the source divides as floating point and calls `Math.ceil`. The model uses exact integer ceiling division, which differs only for differences too large for a double to hold exactly. An unparseable date (NaN days, where every days test is false) is not modelled; `date` is always an integer.
- Campaigns.RatioBelowIsQuotient: relates the test to the exact real quotient, not to the rounded double.
- ReportFlow.Analysis: assumes a well-formed response: an integer score and all three fields present. The code checks none of this. A fractional score would show fractional points (7.5 shows "+37.5 PTS"), a missing score shows NaN (CameraPage.jsx:216), and a missing `specific_items` makes `.join` throw while rendering (CameraPage.jsx:207). The "multiple of 5" clauses of `ReportFlow.Points` and `ReportFlow.ShownPoints` rest on this typing.
- Leaflet internals: `featureGroup`, `getBounds().pad()`, `fitBounds`, `setView`, tiles and `divIcon` HTML work on floating-point coordinates. Only the chosen branch, the chosen points and the 0.1 factor are modelled. The icon anchors and `scale` transform are left out too.
- `formatDistance`, the distance calculator, the popup's distance line, date formatting and the funding `toFixed` display: not part of this model (floating point and presentation).
- Keys inherited from `Object.prototype` (such as `"constructor"`) in the object-literal lookups of CampaignMarker.jsx: ignored. Only the classifier's own tier names ever reach those lookups.
- MapPage.jsx:205-209 puts the priority emoji in a `className`, so it is never displayed. Only the lookup is modelled.
- ProfilePage.jsx, App.jsx, FeedPage's `loadMoreActivities` and ai-services/yolo/quick_download.py: mock display, navigation, a spinner timer and a network/filesystem installer, with no logic of the core.

=== FILE: camera_page.dfy ===
/**
  The report capture and submit flow of the camera screen
  (frontend/src/components/CameraPage.jsx), as a transition system over the
  screen's four state flags: the captured image, `isAnalyzing`, the analysis
  result and `submitted`.

  `submitReport` is split at its one suspension point: `BeginSubmit` is the
  synchronous `setIsAnalyzing(true)`, and `Settle` is everything after the
  image-analysis call settles, including the fixed two-second delay, taken
  as one atomic step. The outcome of that call is a parameter.
 */
module ReportFlow {
  import opened Nullable

  /** A captured screenshot (a data URL, never empty). */
  type Image = s: string | s != "" witness "data:"

  /** The object the analysis service returns, used without any check of
      its shape or score range. */
  datatype Analysis = Analysis(primaryMaterial: string, priorityScore: int, specificItems: seq<string>)

  /** What is shown when the analysis call throws. */
  const Fallback: Analysis := Analysis("Mixed Waste", 7, ["Plastic bottle", "Paper"])

  /** How the awaited analysis call settles: it resolves with a value
      (`None` for a null or undefined value) or it throws. */
  datatype GatewayOutcome = Resolved(value: Option<Analysis>) | Threw

  /** The webcam handle at the moment of capture: absent, or present with the
      screenshot it returns (null while the video is not ready). */
  datatype Webcam = NoWebcam | Webcam(screenshot: Option<Image>)

  datatype Screen = Screen(image: Option<Image>, analyzing: bool, result: Option<Analysis>, submitted: bool)

  const Initial: Screen := Screen(None, false, None, false)

  // ---------------------------------------------------------------------
  // The handlers

  function Capture(s: Screen, cam: Webcam): (s': Screen)
    ensures cam.NoWebcam? ==> s' == s
    ensures cam.Webcam? ==> s'.image == cam.screenshot && s'.(image := s.image) == s
  {
    match cam
    case NoWebcam => s
    case Webcam(shot) => s.(image := shot)
  }

  /** Discards the image and the result; `isAnalyzing` is left alone. */
  function Retake(s: Screen): (s': Screen)
    ensures s'.image.None? && s'.result.None? && !s'.submitted
    ensures s'.analyzing == s.analyzing
  {
    s.(image := None, result := None, submitted := false)
  }

  function ConfirmSubmission(s: Screen): (s': Screen)
    ensures s'.image.None? && s'.result.None? && !s'.submitted
    ensures s'.analyzing == s.analyzing
  {
    Screen(None, s.analyzing, None, false)
  }

  /** The synchronous start of `submitReport`. */
  function BeginSubmit(s: Screen): (s': Screen)
    ensures s'.analyzing
    ensures s'.(analyzing := s.analyzing) == s
  {
    s.(analyzing := true)
  }

  /** The result the screen ends up holding: the resolved value when there is
      one, the fallback otherwise. */
  function OutcomeResult(g: GatewayOutcome): (a: Analysis)
    ensures g.Resolved? && g.value.Some? ==> a == g.value.value
    ensures g.Threw? ==> a == Fallback
  {
    match g
    case Resolved(Some(v)) => v
    case _ => Fallback
  }

  /** The rest of `submitReport` once the analysis call settles. A null
      resolved value is treated like a thrown error (see `SettleAsWritten`
      for the code as it stands). */
  function Settle(s: Screen, g: GatewayOutcome): (s': Screen)
    ensures s'.result == Some(OutcomeResult(g))
    ensures !s'.analyzing && s'.submitted
    ensures s'.image == s.image
  {
    s.(result := Some(OutcomeResult(g)), analyzing := false, submitted := true)
  }

  /** The rest of `submitReport` exactly as written: whatever the call
      resolves with is stored, even null. */
  function SettleAsWritten(s: Screen, g: GatewayOutcome): (s': Screen)
    ensures g.Resolved? ==> s'.result == g.value
    ensures g.Threw? ==> s'.result == Some(Fallback)
    ensures !s'.analyzing && s'.submitted && s'.image == s.image
  {
    match g
    case Resolved(v) => s.(result := v, analyzing := false, submitted := true)
    case Threw => s.(result := Some(Fallback), analyzing := false, submitted := true)
  }

  /** The two settle steps differ only when the call resolves with null. */
  lemma SettleAgreesUnlessNull(s: Screen, g: GatewayOutcome)
    ensures SettleAsWritten(s, g) == Settle(s, g) <==> g != Resolved(None)
  {
  }

  /** `submitReport` as one step, from click to settled call. */
  function SubmitReport(s: Screen, g: GatewayOutcome): (s': Screen)
    ensures !s'.analyzing && s'.submitted && s'.image == s.image
    ensures g.Resolved? && g.value.Some? ==> s'.result == g.value
    ensures g.Threw? ==> s'.result == Some(Fallback)
  {
    Settle(BeginSubmit(s), g)
  }

  /** Points awarded for a result. */
  function Points(a: Analysis): (p: int)
    ensures p % 5 == 0 && p / 5 == a.priorityScore
  {
    a.priorityScore * 5
  }

  /** Scores 1 to 10 earn 5 to 50 points, and the fallback earns 35. */
  lemma PointsRange(a: Analysis)
    ensures 1 <= a.priorityScore <= 10 ==> 5 <= Points(a) <= 50
    ensures Points(Fallback) == 35
  {
  }

  // ---------------------------------------------------------------------
  // What the screen shows

  /** Live webcam and capture button: rendered while no image is held. */
  predicate CaptureShown(s: Screen) {
    s.image.None?
  }

  /** Spinner overlay over the captured image. */
  predicate AnalyzingShown(s: Screen) {
    s.image.Some? && s.analyzing
  }

  /** The "Report Submitted!" card with the results and "Capture Another". */
  predicate SuccessShown(s: Screen) {
    s.image.Some? && s.submitted && s.result.Some? && !s.analyzing
  }

  /** The Retake and "Analyze & Submit" buttons. */
  predicate ActionsShown(s: Screen) {
    s.image.Some? && !s.submitted && !s.analyzing
  }

  /** The points line of the success card. */
  function ShownPoints(s: Screen): (p: Option<int>)
    ensures p.Some? <==> SuccessShown(s)
    ensures p.Some? ==> p.value == s.result.value.priorityScore * 5
    ensures p.Some? ==> p.value % 5 == 0
  {
    if SuccessShown(s) then Some(Points(s.result.value)) else None
  }

  // ---------------------------------------------------------------------
  // The transition system

  /** A button press, or the in-flight analysis call settling. */
  datatype Event =
    | CaptureClick(cam: Webcam)
    | RetakeClick
    | SubmitClick
    | CallSettles(outcome: GatewayOutcome)
    | ConfirmClick

  /** Whether the event can happen: a button only while it is rendered, the
      settling of the call only while one is in flight. */
  predicate Enabled(s: Screen, e: Event) {
    match e
    case CaptureClick(_) => CaptureShown(s)
    case RetakeClick => ActionsShown(s)
    case SubmitClick => ActionsShown(s)
    case CallSettles(_) => s.analyzing
    case ConfirmClick => SuccessShown(s)
  }

  function Step(s: Screen, e: Event): (s': Screen) {
    match e
    case CaptureClick(cam) => Capture(s, cam)
    case RetakeClick => Retake(s)
    case SubmitClick => BeginSubmit(s)
    case CallSettles(g) => Settle(s, g)
    case ConfirmClick => ConfirmSubmission(s)
  }

  function StepAsWritten(s: Screen, e: Event): (s': Screen) {
    match e
    case CallSettles(g) => SettleAsWritten(s, g)
    case _ => Step(s, e)
  }

  /** Replays a sequence of events; None as soon as one is not enabled. */
  function Run(s: Screen, es: seq<Event>): (r: Option<Screen>)
    decreases |es|
  {
    if es == [] then Some(s)
    else if !Enabled(s, es[0]) then None
    else Run(Step(s, es[0]), es[1..])
  }

  function RunAsWritten(s: Screen, es: seq<Event>): (r: Option<Screen>)
    decreases |es|
  {
    if es == [] then Some(s)
    else if !Enabled(s, es[0]) then None
    else RunAsWritten(StepAsWritten(s, es[0]), es[1..])
  }

  /** The four stages the flags are meant to encode. */
  datatype Stage = Idle | Captured(image: Image) | Analyzing(image: Image) | Submitted(image: Image, result: Analysis)

  /** The flags of each stage. */
  function Flags(st: Stage): (s: Screen) {
    match st
    case Idle => Initial
    case Captured(img) => Screen(Some(img), false, None, false)
    case Analyzing(img) => Screen(Some(img), true, None, false)
    case Submitted(img, a) => Screen(Some(img), false, Some(a), true)
  }

  /** A flag combination that is one of the four stages. */
  predicate Consistent(s: Screen) {
    || s == Initial
    || (s.image.Some? && s.result.None? && !s.submitted)
    || (s.image.Some? && s.result.Some? && s.submitted && !s.analyzing)
  }

  /** The stage a consistent flag combination encodes. */
  function StageOf(s: Screen): (st: Stage)
    requires Consistent(s)
    ensures Flags(st) == s
  {
    if s.image.None? then Idle
    else if s.submitted then Submitted(s.image.value, s.result.value)
    else if s.analyzing then Analyzing(s.image.value)
    else Captured(s.image.value)
  }

  /** The two invariants the screen relies on follow from consistency. */
  lemma ConsistentInvariants(s: Screen)
    requires Consistent(s)
    ensures s.analyzing ==> s.image.Some? && !s.submitted
    ensures s.submitted ==> s.result.Some? && !s.analyzing
    ensures s.result.Some? ==> s.submitted
  {
  }

  /** Every enabled step keeps the flags consistent. */
  lemma StepPreservesConsistent(s: Screen, e: Event)
    requires Consistent(s) && Enabled(s, e)
    ensures Consistent(Step(s, e))
  {
  }

  /** Every flag combination reachable through enabled steps is consistent. */
  lemma {:induction false} RunPreservesConsistent(s: Screen, es: seq<Event>)
    requires Consistent(s)
    requires Run(s, es).Some?
    ensures Consistent(Run(s, es).value)
    decreases |es|
  {
    if es != [] {
      StepPreservesConsistent(s, es[0]);
      RunPreservesConsistent(Step(s, es[0]), es[1..]);
    }
  }

  lemma ReachableIsConsistent(es: seq<Event>)
    requires Run(Initial, es).Some?
    ensures Consistent(Run(Initial, es).value)
  {
    RunPreservesConsistent(Initial, es);
  }

  /** The event sequence never sees the analysis call resolve with null. */
  predicate NoNullResolution(es: seq<Event>) {
    forall i :: 0 <= i < |es| ==> es[i] != CallSettles(Resolved(None))
  }

  /** The code as written and the corrected system replay such an event
      sequence identically. */
  lemma {:induction false} RunAsWrittenAgrees(s: Screen, es: seq<Event>)
    requires NoNullResolution(es)
    ensures RunAsWritten(s, es) == Run(s, es)
    decreases |es|
  {
    if es != [] {
      assert es[0] != CallSettles(Resolved(None));
      if es[0].CallSettles? {
        SettleAgreesUnlessNull(s, es[0].outcome);
      }
      assert StepAsWritten(s, es[0]) == Step(s, es[0]);
      assert NoNullResolution(es[1..]) by {
        forall i | 0 <= i < |es[1..]| ensures es[1..][i] != CallSettles(Resolved(None)) {
          assert es[1..][i] == es[i + 1];
        }
      }
      RunAsWrittenAgrees(Step(s, es[0]), es[1..]);
    }
  }

  /** For the code as written: every state reached through enabled events,
      with the analysis call never resolving null, is consistent. */
  lemma ReachableAsWrittenIsConsistent(es: seq<Event>)
    requires NoNullResolution(es)
    requires RunAsWritten(Initial, es).Some?
    ensures Consistent(RunAsWritten(Initial, es).value)
  {
    RunAsWrittenAgrees(Initial, es);
    RunPreservesConsistent(Initial, es);
  }

  /** Events that drive the screen from the start to a given stage. */
  function PathTo(st: Stage): (es: seq<Event>) {
    match st
    case Idle => []
    case Captured(img) => [CaptureClick(Webcam(Some(img)))]
    case Analyzing(img) => [CaptureClick(Webcam(Some(img))), SubmitClick]
    case Submitted(img, a) => [CaptureClick(Webcam(Some(img))), SubmitClick, CallSettles(Resolved(Some(a)))]
  }

  /** Conversely, every consistent flag combination is reachable. */
  lemma ConsistentIsReachable(s: Screen)
    requires Consistent(s)
    ensures Run(Initial, PathTo(StageOf(s))) == Some(s)
  {
    var st := StageOf(s);
    match st
    case Idle =>
    case Captured(img) =>
      assert Run(Initial, PathTo(st)) == Run(Flags(st), []);
    case Analyzing(img) =>
      var p := PathTo(st);
      assert p[1..] == [SubmitClick] && p[1..][1..] == [];
      assert Run(Flags(Captured(img)), [SubmitClick]) == Run(Flags(Analyzing(img)), []);
      assert Run(Initial, p) == Run(Flags(Captured(img)), p[1..]);
    case Submitted(img, a) =>
      var p := PathTo(st);
      assert p[1..] == [SubmitClick, CallSettles(Resolved(Some(a)))];
      assert p[1..][1..] == [CallSettles(Resolved(Some(a)))] && p[1..][1..][1..] == [];
      assert Run(Flags(Analyzing(img)), p[1..][1..]) == Run(Flags(Submitted(img, a)), []);
      assert Run(Flags(Captured(img)), p[1..]) == Run(Flags(Analyzing(img)), p[1..][1..]);
      assert Run(Initial, p) == Run(Flags(Captured(img)), p[1..]);
  }

  /** In every consistent state exactly one of the four views is on screen. */
  lemma ExactlyOneView(s: Screen)
    requires Consistent(s)
    ensures (if CaptureShown(s) then 1 else 0) + (if AnalyzingShown(s) then 1 else 0)
          + (if SuccessShown(s) then 1 else 0) + (if ActionsShown(s) then 1 else 0) == 1
  {
  }

  /** The success card is shown exactly when submitted, with a result and not
      analysing; the image test adds nothing in a consistent state. */
  lemma SuccessShownIff(s: Screen)
    requires Consistent(s)
    ensures SuccessShown(s) <==> s.submitted && s.result.Some? && !s.analyzing
  {
  }

  /** No consistent state is a dead end. */
  lemma NoDeadEnd(s: Screen)
    requires Consistent(s)
    ensures exists e :: Enabled(s, e)
  {
    if s.image.None? {
      assert Enabled(s, CaptureClick(NoWebcam));
    } else if s.analyzing {
      assert Enabled(s, CallSettles(Threw));
    } else if s.submitted {
      assert Enabled(s, ConfirmClick);
    } else {
      assert Enabled(s, RetakeClick);
    }
  }

  /** Retake and "Capture Another" lead to the same state, and from a
      consistent state that is the start state. */
  lemma RetakeIsConfirm(s: Screen)
    ensures Retake(s) == ConfirmSubmission(s)
    ensures Retake(Retake(s)) == Retake(s)
    ensures Consistent(s) && !s.analyzing ==> Retake(s) == Initial
  {
  }

  /** Capturing without a webcam handle changes nothing. */
  lemma CaptureWithoutWebcam(s: Screen)
    ensures Run(s, [CaptureClick(NoWebcam)]) == (if CaptureShown(s) then Some(s) else None)
  {
  }

  /** From the Captured stage, a submit whose call throws ends on the success
      card with the fallback result and 35 points. */
  lemma ThrowAwards35(img: Image)
    ensures var s := Flags(Captured(img));
            var s' := Run(s, [SubmitClick, CallSettles(Threw)]);
            && s'.Some?
            && s'.value == Flags(Submitted(img, Fallback))
            && ShownPoints(s'.value) == Some(35)
  {
  }

  /** The guards matter: retaking while the call is in flight would leave
      the spinner flag set with no image to show it on. */
  lemma RetakeWhileAnalyzingBreaksFlags(img: Image)
    ensures !Consistent(Retake(Flags(Analyzing(img))))
  {
  }

  /** As written, a call that resolves with null leaves a screen with no
      view and no enabled event. */
  lemma NullResolutionIsStuck(img: Image)
    ensures var es := [CaptureClick(Webcam(Some(img))), SubmitClick, CallSettles(Resolved(None))];
            var s := RunAsWritten(Initial, es);
            && s == Some(Screen(Some(img), false, None, true))
            && !Consistent(s.value)
            && !CaptureShown(s.value) && !AnalyzingShown(s.value)
            && !SuccessShown(s.value) && !ActionsShown(s.value)
            && (forall e :: !Enabled(s.value, e))
  {
    var es := [CaptureClick(Webcam(Some(img))), SubmitClick, CallSettles(Resolved(None))];
    assert es[1..] == [SubmitClick, CallSettles(Resolved(None))];
    assert es[1..][1..] == [CallSettles(Resolved(None))] && es[1..][1..][1..] == [];
    var captured := Flags(Captured(img));
    var analyzing := Flags(Analyzing(img));
    assert RunAsWritten(analyzing, es[1..][1..]) == Some(Screen(Some(img), false, None, true));
    assert RunAsWritten(captured, es[1..]) == RunAsWritten(analyzing, es[1..][1..]);
    assert RunAsWritten(Initial, es) == RunAsWritten(captured, es[1..]);
  }
}

=== FILE: campaign_map.dfy ===
/**
  The view decisions of the campaign map
  (frontend/src/components/map/CampaignMap.jsx): whether `MapUpdater` fits
  the map to a set of points or sets a centre and zoom, which points go into
  the fitted bounds, when the user's location marker and accuracy circle
  appear, and which campaign marker is drawn as selected.

  Leaflet computes the actual bounds and viewport; here only the choice of
  branch and of points is modelled. A coordinate is "truthy" when it is not
  zero, as in JavaScript.
 */
module CampaignMapView {
  import opened Nullable
  import opened Campaigns

  /** Default props of `CampaignMap`: Dubai at zoom 11, no fitting. */
  const DefaultCenter: LatLng := LatLng(25.2048, 55.2708)
  const DefaultZoom: int := 11

  /** The factor the fitted bounds are padded by. */
  const BoundsPadding: real := 0.1

  /** What `MapUpdater` asks Leaflet to do. */
  datatype ViewUpdate =
    | FitBounds(points: seq<LatLng>, padding: real)
    | SetView(center: LatLng, zoom: int)
    | Unchanged

  predicate Truthy(x: real) {
    x != 0.0
  }

  /** `center && center.lat && center.lng` */
  predicate HasTruthyCoords(p: Option<LatLng>) {
    p.Some? && Truthy(p.value.lat) && Truthy(p.value.lng)
  }

  /** The campaigns' positions, in list order. */
  function Locations(campaigns: seq<Campaign>): (pts: seq<LatLng>)
    ensures |pts| == |campaigns|
    ensures forall i :: 0 <= i < |campaigns| ==> pts[i] == campaigns[i].location
  {
    seq(|campaigns|, i requires 0 <= i < |campaigns| => campaigns[i].location)
  }

  /** The points of the feature group whose bounds are fitted: one per
      campaign, then the `center` prop when both its coordinates are truthy. */
  function BoundsPoints(campaigns: seq<Campaign>, center: Option<LatLng>): (pts: seq<LatLng>)
    ensures |pts| == |campaigns| + (if HasTruthyCoords(center) then 1 else 0)
    ensures pts[..|campaigns|] == Locations(campaigns)
    ensures HasTruthyCoords(center) ==> pts[|campaigns|] == center.value
  {
    Locations(campaigns) + (if HasTruthyCoords(center) then [center.value] else [])
  }

  /** The effect of `MapUpdater` for one set of props. */
  function MapUpdate(center: Option<LatLng>, zoom: int, campaigns: seq<Campaign>, fitBounds: bool): (u: ViewUpdate)
    ensures u.FitBounds? <==> fitBounds && |campaigns| > 0
    ensures u.FitBounds? ==> u.points == BoundsPoints(campaigns, center) && u.padding == BoundsPadding
    ensures u.SetView? ==> center == Some(u.center) && u.zoom == zoom
    ensures u.Unchanged? <==> !(fitBounds && |campaigns| > 0) && center.None?
  {
    if fitBounds && |campaigns| > 0 then
      FitBounds(BoundsPoints(campaigns, center), BoundsPadding)
    else if center.Some? then
      SetView(center.value, zoom)
    else
      Unchanged
  }

  /** Fitting covers every campaign, and nothing but the campaigns and the
      centre. */
  lemma FitCoversCampaigns(center: Option<LatLng>, zoom: int, campaigns: seq<Campaign>)
    requires |campaigns| > 0
    ensures var u := MapUpdate(center, zoom, campaigns, true);
            && u.FitBounds?
            && (forall c :: c in campaigns ==> c.location in u.points)
            && (forall p :: p in u.points ==>
                  (exists c :: c in campaigns && c.location == p) || Some(p) == center)
  {
  }

  /** The centre joins the bounds exactly when both its coordinates are
      non-zero: a centre on the equator or the prime meridian is left out. */
  lemma CenterInBoundsIffTruthy(campaigns: seq<Campaign>, center: LatLng)
    ensures |BoundsPoints(campaigns, Some(center))| == |campaigns| + 1
        <==> center.lat != 0.0 && center.lng != 0.0
    ensures center.lat == 0.0 || center.lng == 0.0 ==>
              BoundsPoints(campaigns, Some(center)) == Locations(campaigns)
  {
  }

  /** Without campaigns, or without fitting, the centre and zoom are applied
      unchanged; no error arises. */
  lemma NoFitSetsView(center: LatLng, zoom: int, campaigns: seq<Campaign>, fitBounds: bool)
    requires !fitBounds || campaigns == []
    ensures MapUpdate(Some(center), zoom, campaigns, fitBounds) == SetView(center, zoom)
  {
  }

  /** With the default props (no fitting, Dubai at zoom 11) the map is set
      to that view whatever campaigns it shows. */
  lemma DefaultPropsSetView(campaigns: seq<Campaign>)
    ensures MapUpdate(Some(DefaultCenter), DefaultZoom, campaigns, false) == SetView(LatLng(25.2048, 55.2708), 11)
  {
  }

  // ---------------------------------------------------------------------
  // User location marker

  datatype UserLocation = UserLocation(pos: LatLng, accuracy: Option<real>)

  /** What `UserLocationMarker` renders: nothing, or a marker with an
      optional accuracy circle of the given radius. */
  datatype UserMarker = Hidden | Shown(pos: LatLng, circleRadius: Option<real>)

  function UserLocationMarker(loc: Option<UserLocation>): (m: UserMarker)
    ensures m.Shown? <==> loc.Some? && HasTruthyCoords(Some(loc.value.pos))
    ensures m.Shown? ==> m.pos == loc.value.pos
    ensures m.Shown? ==> (m.circleRadius.Some? <==> loc.value.accuracy.Some? && Truthy(loc.value.accuracy.value))
    ensures m.Shown? && m.circleRadius.Some? ==> Some(m.circleRadius.value) == loc.value.accuracy
  {
    if loc.None? || !Truthy(loc.value.pos.lat) || !Truthy(loc.value.pos.lng) then
      Hidden
    else
      var circle := if loc.value.accuracy.Some? && Truthy(loc.value.accuracy.value)
                    then loc.value.accuracy else None;
      Shown(loc.value.pos, circle)
  }

  // ---------------------------------------------------------------------
  // Campaign markers

  /** `selectedCampaign?.id === campaign.id` */
  predicate IsSelected(selected: Option<Campaign>, c: Campaign) {
    selected.Some? && selected.value.id == c.id
  }

  predicate UniqueIds(campaigns: seq<Campaign>) {
    forall i, j :: 0 <= i < j < |campaigns| ==> campaigns[i].id != campaigns[j].id
  }

  /** The icon of every campaign marker on the map, in list order. */
  function MarkerIcons(campaigns: seq<Campaign>, selected: Option<Campaign>, now: int): (icons: seq<MarkerIcon>)
    ensures |icons| == |campaigns|
    ensures forall i :: 0 <= i < |campaigns| ==>
              icons[i].size == (if IsSelected(selected, campaigns[i]) then 35 else 25)
    ensures forall i :: 0 <= i < |campaigns| ==>
              (icons[i].glyph == "✓" <==> campaigns[i].status == "completed")
  {
    seq(|campaigns|, i requires 0 <= i < |campaigns| =>
      CreateMarkerIcon(Classify(campaigns[i], now).Name(), IsSelected(selected, campaigns[i])))
  }

  /** With unique ids at most one marker is drawn at the selected size. */
  lemma AtMostOneSelected(campaigns: seq<Campaign>, selected: Option<Campaign>, now: int)
    requires UniqueIds(campaigns)
    ensures var icons := MarkerIcons(campaigns, selected, now);
            forall i, j :: 0 <= i < |icons| && 0 <= j < |icons| && icons[i].size == 35 && icons[j].size == 35 ==> i == j
  {
  }
}

=== FILE: campaign_marker.dfy ===
/**
  The campaign priority classifier and the attributes of a campaign's map
  marker (frontend/src/components/map/CampaignMarker.jsx).

  Time is integer milliseconds since the epoch. The volunteer ratio test
  `count / goal < k / 10` is decided by cross-multiplication.
 */
module Campaigns {
  import opened Nullable

  /** Milliseconds in one day: 1000 * 60 * 60 * 24. */
  const DayMs: int := 86_400_000

  datatype LatLng = LatLng(lat: real, lng: real)

  /** The fields of a campaign that the core reads. `volunteerCount` is the
      length of the campaign's `volunteers` array; `date` is the event time. */
  datatype Campaign = Campaign(
    id: int,
    status: string,
    volunteerCount: nat,
    volunteerGoal: nat,
    date: int,
    location: LatLng)

  /** The four priority tiers; `Name` is the string the UI keys its lookups on. */
  datatype Tier = High | Medium | Low | Completed {

    function Name(): string {
      match this
      case High => "high"
      case Medium => "medium"
      case Low => "low"
      case Completed => "completed"
    }

    /** How urgent an open campaign is: 3 for high, 2 for medium, 1 for low. */
    function Urgency(): nat {
      match this
      case High => 3
      case Medium => 2
      case Low => 1
      case Completed => 0
    }
  }

  const TierNames: set<string> := {"high", "medium", "low", "completed"}

  /** Whole days until the event, rounded up, as `Math.ceil(diff / day)`:
      negative for events in the past. */
  function DaysUntil(date: int, now: int): (days: int)
    ensures (days - 1) * DayMs < date - now <= days * DayMs
  {
    -((now - date) / DayMs)
  }

  /** `count / goal < tenths / 10` evaluated as JavaScript does for a
      non-negative count: when goal is 0 the quotient is Infinity or NaN and
      the comparison is false. */
  function RatioBelow(count: nat, goal: nat, tenths: nat): (b: bool)
    ensures goal == 0 ==> !b
    ensures count == 0 ==> (b <==> goal > 0 && tenths > 0)
  {
    goal > 0 && 10 * count < tenths * goal
  }

  /** The first-match-wins decision of `getPriority`. */
  function Classify(c: Campaign, now: int): (t: Tier)
    ensures t == Completed <==> c.status == "completed"
    ensures t.Name() in TierNames
  {
    if c.status == "completed" then Completed
    else
      var days := DaysUntil(c.date, now);
      if days <= 3 || RatioBelow(c.volunteerCount, c.volunteerGoal, 3) then High
      else if days <= 7 || RatioBelow(c.volunteerCount, c.volunteerGoal, 6) then Medium
      else Low
  }

  // ---------------------------------------------------------------------
  // An independent reading of the classifier: an open campaign is as urgent
  // as the more urgent of its two signals.

  function DaysUrgency(days: int): (u: nat) {
    if days <= 3 then 3 else if days <= 7 then 2 else 1
  }

  function RatioUrgency(count: nat, goal: nat): (u: nat) {
    if RatioBelow(count, goal, 3) then 3 else if RatioBelow(count, goal, 6) then 2 else 1
  }

  function Max(a: nat, b: nat): (m: nat) {
    if a < b then b else a
  }

  /** The tier of an open campaign is the larger of the two signal urgencies. */
  lemma ClassifyIsMaxUrgency(c: Campaign, now: int)
    requires c.status != "completed"
    ensures Classify(c, now).Urgency()
         == Max(DaysUrgency(DaysUntil(c.date, now)), RatioUrgency(c.volunteerCount, c.volunteerGoal))
  {
  }

  /** The explicit rules, in both directions: high exactly when a
      high-urgency signal fires, medium exactly when none does but a
      medium one does, low otherwise. */
  lemma ClassifyRules(c: Campaign, now: int)
    requires c.status != "completed"
    ensures var days := DaysUntil(c.date, now);
            var n := c.volunteerCount;
            var g := c.volunteerGoal;
            && (Classify(c, now) == High <==> days <= 3 || RatioBelow(n, g, 3))
            && (Classify(c, now) == Medium <==>
                  !(days <= 3 || RatioBelow(n, g, 3)) && (days <= 7 || RatioBelow(n, g, 6)))
            && (Classify(c, now) == Low <==> days > 7 && !RatioBelow(n, g, 6))
  {
  }

  /** A completed campaign is `completed` whatever its date, volunteers or
      the current time. */
  lemma CompletedWins(c: Campaign, now: int, date: int, count: nat, goal: nat)
    requires c.status == "completed"
    ensures Classify(c.(date := date, volunteerCount := count, volunteerGoal := goal), now) == Completed
  {
  }

  /** Cross-multiplication agrees with the real-valued quotient. */
  lemma RatioBelowIsQuotient(count: nat, goal: nat, tenths: nat)
    requires goal > 0
    ensures RatioBelow(count, goal, tenths) <==> (count as real) / (goal as real) < (tenths as real) / 10.0
  {
  }

  /** A lower volunteer ratio, with the threshold fixed, is below the
      threshold whenever the higher one is. */
  lemma RatioBelowMonotone(c1: nat, g1: nat, c2: nat, g2: nat, tenths: nat)
    requires g1 > 0 && g2 > 0
    requires c1 * g2 <= c2 * g1
    ensures RatioBelow(c2, g2, tenths) ==> RatioBelow(c1, g1, tenths)
  {
    if RatioBelow(c2, g2, tenths) {
      calc {
        10 * c1 * g2;
        <= { MulLeftMonotone(10, c1 * g2, c2 * g1); }
        10 * c2 * g1;
        < { MulRightStrict(10 * c2, tenths * g2, g1); }
        tenths * g2 * g1;
      }
      MulRightCancel(10 * c1, tenths * g1, g2);
    }
  }

  lemma MulLeftMonotone(k: nat, a: int, b: int)
    requires a <= b
    ensures k * a <= k * b
  {
  }

  lemma MulRightStrict(a: int, b: int, k: int)
    requires a < b && k > 0
    ensures a * k < b * k
  {
  }

  lemma MulRightCancel(a: int, b: int, k: int)
    requires k > 0 && a * k < b * k
    ensures a < b
  {
  }

  /** Fewer days until the event never gives a less urgent tier. */
  lemma FewerDaysNotLessUrgent(c: Campaign, now: int, earlier: int)
    requires c.status != "completed"
    requires earlier <= c.date
    ensures Classify(c.(date := earlier), now).Urgency() >= Classify(c, now).Urgency()
  {
    ClassifyIsMaxUrgency(c, now);
    ClassifyIsMaxUrgency(c.(date := earlier), now);
    DaysUntilMonotone(earlier, c.date, now);
  }

  /** A lower volunteer ratio never gives a less urgent tier. */
  lemma LowerRatioNotLessUrgent(c: Campaign, now: int, count: nat, goal: nat)
    requires c.status != "completed"
    requires goal > 0 && c.volunteerGoal > 0
    requires count * c.volunteerGoal <= c.volunteerCount * goal
    ensures Classify(c.(volunteerCount := count, volunteerGoal := goal), now).Urgency()
         >= Classify(c, now).Urgency()
  {
    ClassifyIsMaxUrgency(c, now);
    ClassifyIsMaxUrgency(c.(volunteerCount := count, volunteerGoal := goal), now);
    RatioBelowMonotone(count, goal, c.volunteerCount, c.volunteerGoal, 3);
    RatioBelowMonotone(count, goal, c.volunteerCount, c.volunteerGoal, 6);
  }

  /** A later event never has fewer days to go. */
  lemma DaysUntilMonotone(d1: int, d2: int, now: int)
    requires d1 <= d2
    ensures DaysUntil(d1, now) <= DaysUntil(d2, now)
  {
    var a := DaysUntil(d1, now);
    var b := DaysUntil(d2, now);
    assert (a - 1) * DayMs < b * DayMs;
    MulRightCancel(a - 1, b, DayMs);
  }

  /** Two days away and 90% staffed is still high: the days rule is tried
      first and fires, so the well-staffed ratio is never consulted. */
  lemma SoonButStaffedIsHigh(c: Campaign, now: int)
    requires c.status == "active"
    requires c.date == now + 2 * DayMs
    requires c.volunteerCount == 9 && c.volunteerGoal == 10
    ensures Classify(c, now) == High
  {
  }

  /** An open campaign whose event time has already come is high,
      whatever its volunteers: its day count is zero or negative. */
  lemma PastEventIsHigh(c: Campaign, now: int)
    requires c.status != "completed"
    requires c.date <= now
    ensures DaysUntil(c.date, now) <= 0
    ensures Classify(c, now) == High
  {
  }

  /** Ten days away and half staffed is medium, through the ratio rule
      alone; twenty days away and 80% staffed passes both medium tests and
      is low. */
  lemma MediumAndLowExamples(c: Campaign, now: int)
    requires c.status == "active" && c.volunteerGoal == 10
    ensures c.date == now + 10 * DayMs && c.volunteerCount == 5 ==> Classify(c, now) == Medium
    ensures c.date == now + 20 * DayMs && c.volunteerCount == 8 ==> Classify(c, now) == Low
  {
    if c.date == now + 10 * DayMs {
      assert DaysUntil(c.date, now) == 10;
    }
    if c.date == now + 20 * DayMs {
      assert DaysUntil(c.date, now) == 20;
    }
  }

  // ---------------------------------------------------------------------
  // Marker attributes

  /** The marker palette of `createMarkerIcon`. */
  function MarkerPalette(priority: string): (color: Option<string>) {
    match priority
    case "high" => Some("#E53E3E")
    case "medium" => Some("#DD6B20")
    case "low" => Some("#3182CE")
    case "completed" => Some("#38A169")
    case _ => None
  }

  datatype MarkerIcon = MarkerIcon(color: string, size: nat, fontPx: nat, glyph: string)

  /** The visible attributes of the icon `createMarkerIcon` builds. */
  function CreateMarkerIcon(priority: string, selected: bool): (icon: MarkerIcon)
    ensures priority in TierNames ==> Some(icon.color) == MarkerPalette(priority)
    ensures priority !in TierNames ==> icon.color == "#3182CE"
    ensures icon.size == (if selected then 35 else 25)
    ensures icon.fontPx == 14 <==> selected
    ensures icon.glyph == "✓" <==> priority == "completed"
    ensures icon.glyph == "✓" || icon.glyph == "!"
  {
    var color := MarkerPalette(priority).OrElse(MarkerPalette("low").value);
    var size := if selected then 35 else 25;
    MarkerIcon(color, size, if size > 30 then 14 else 12, if priority == "completed" then "✓" else "!")
  }

  /** Badge colour scheme of the popup; undefined for an unknown tier. */
  function PriorityColor(priority: string): (r: Option<string>)
    ensures r.Some? <==> priority in TierNames
  {
    match priority
    case "high" => Some("red")
    case "medium" => Some("orange")
    case "low" => Some("blue")
    case "completed" => Some("green")
    case _ => None
  }

  /** Badge label of the popup; undefined for an unknown tier. */
  function PriorityLabel(priority: string): (r: Option<string>)
    ensures r.Some? <==> priority in TierNames
  {
    match priority
    case "high" => Some("Urgent")
    case "medium" => Some("Medium")
    case "low" => Some("Low Priority")
    case "completed" => Some("Completed")
    case _ => None
  }

  /** The marker of a classified campaign never needs a fallback: its colour,
      badge colour and badge label are all defined for its own tier. */
  lemma ClassifiedMarkerIsDefined(c: Campaign, now: int, selected: bool)
    ensures var name := Classify(c, now).Name();
            && Some(CreateMarkerIcon(name, selected).color) == MarkerPalette(name)
            && PriorityColor(name).Some?
            && PriorityLabel(name).Some?
            && (CreateMarkerIcon(name, selected).glyph == "✓" <==> c.status == "completed")
  {
  }

  /** The "Join Campaign" button is offered exactly for status `active`. */
  predicate CanJoin(c: Campaign) {
    c.status == "active"
  }

  /** A campaign that can be joined is never shown as completed. */
  lemma JoinableIsOpen(c: Campaign, now: int)
    requires CanJoin(c)
    ensures Classify(c, now) != Completed
    ensures Classify(c, now).Urgency() >= 1
  {
  }
}

=== FILE: feed_page.dfy ===
/**
  Liking activities in the feed (frontend/src/components/FeedPage.jsx):
  `toggleLike` maps over the list and flips the `liked` flag of the activity
  with the given id, adjusting its like counter.
 */
module Feed {

  datatype Activity = Activity(
    id: int,
    user: string,
    action: string,
    location: string,
    image: string,
    stats: ActivityStats,
    time: string,
    likes: int,
    liked: bool)

  /** The nested `stats` object: a trash tally or a volunteer tally, with
      the points earned. */
  datatype ActivityStats =
    | TrashStats(trash: string, points: int)
    | VolunteerStats(volunteers: string, points: int)

  /** The one-activity update inside the map's callback. */
  function ToggleOne(a: Activity, id: int): (b: Activity)
    ensures a.id != id ==> b == a
    ensures a.id == id ==> b.liked == !a.liked
    ensures a.id == id ==> b.likes == (if a.liked then a.likes - 1 else a.likes + 1)
    ensures b.(liked := a.liked, likes := a.likes) == a
  {
    if a.id == id then a.(liked := !a.liked, likes := if a.liked then a.likes - 1 else a.likes + 1) else a
  }

  /** `toggleLike(id)` over the whole list. */
  function ToggleLike(acts: seq<Activity>, id: int): (r: seq<Activity>)
    ensures |r| == |acts|
    ensures forall i :: 0 <= i < |acts| && acts[i].id != id ==> r[i] == acts[i]
    ensures forall i :: 0 <= i < |acts| && acts[i].id == id ==>
              && r[i].liked == !acts[i].liked
              && r[i].likes == acts[i].likes + (if acts[i].liked then -1 else 1)
              && r[i].(liked := acts[i].liked, likes := acts[i].likes) == acts[i]
    decreases |acts|
  {
    if acts == [] then []
    else [ToggleOne(acts[0], id)] + ToggleLike(acts[1..], id)
  }

  /** Likes not counting the viewer's own. */
  function OthersLikes(a: Activity): (n: int) {
    if a.liked then a.likes - 1 else a.likes
  }

  /** A toggle never changes how many other people like an activity. */
  lemma ToggleKeepsOthersLikes(acts: seq<Activity>, id: int)
    ensures forall i :: 0 <= i < |acts| ==> OthersLikes(ToggleLike(acts, id)[i]) == OthersLikes(acts[i])
  {
  }

  /** Toggling the same id twice restores the list. */
  lemma ToggleTwiceRestores(acts: seq<Activity>, id: int)
    ensures ToggleLike(ToggleLike(acts, id), id) == acts
  {
  }

  /** An id that matches no activity leaves the list as it is. */
  lemma ToggleUnknownIdIsIdentity(acts: seq<Activity>, id: int)
    requires forall i :: 0 <= i < |acts| ==> acts[i].id != id
    ensures ToggleLike(acts, id) == acts
  {
  }
}

=== FILE: map_page.dfy ===
/**
  The trash-report list of the map screen
  (frontend/src/components/MapPage.jsx): the priority filter, the per-tier
  tallies, the colour and emoji lookups with their defaults, and the
  select/deselect toggle on a report card.
 */
module TrashMap {
  import opened Nullable

  datatype Report = Report(
    id: int,
    location: string,
    priority: string,
    items: int,
    distance: real,
    reportedBy: string,
    time: string,
    status: string)

  /** Number of reports with the given priority. */
  function CountPriority(reports: seq<Report>, p: string): (n: nat)
    ensures n <= |reports|
    decreases |reports|
  {
    if reports == [] then 0
    else CountPriority(reports[..|reports| - 1], p) + (if reports[|reports| - 1].priority == p then 1 else 0)
  }

  /** The reports with the given priority, in their original order. */
  function OnlyPriority(reports: seq<Report>, p: string): (r: seq<Report>)
    ensures |r| <= |reports|
    ensures forall x :: x in r <==> x in reports && x.priority == p
    decreases |reports|
  {
    if reports == [] then []
    else if reports[0].priority == p then [reports[0]] + OnlyPriority(reports[1..], p)
    else OnlyPriority(reports[1..], p)
  }

  /** `filteredReports`: everything for "all", one tier otherwise. */
  function FilterReports(reports: seq<Report>, filter: string): (r: seq<Report>)
    ensures filter == "all" ==> r == reports
    ensures filter != "all" ==> forall x :: x in r <==> x in reports && x.priority == filter
  {
    if filter == "all" then reports else OnlyPriority(reports, filter)
  }

  /** `xs` can be obtained from `ys` by deleting elements. */
  predicate IsSubsequence<T(==)>(xs: seq<T>, ys: seq<T>)
    decreases |ys|
  {
    if xs == [] then true
    else if ys == [] then false
    else if xs[0] == ys[0] then IsSubsequence(xs[1..], ys[1..])
    else IsSubsequence(xs, ys[1..])
  }

  /** Filtering keeps the original order. */
  lemma {:induction false} FilterKeepsOrder(reports: seq<Report>, filter: string)
    ensures IsSubsequence(FilterReports(reports, filter), reports)
  {
    if filter == "all" {
      SubsequenceReflexive(reports);
    } else {
      OnlyPriorityKeepsOrder(reports, filter);
    }
  }

  lemma {:induction false} OnlyPriorityKeepsOrder(reports: seq<Report>, p: string)
    ensures IsSubsequence(OnlyPriority(reports, p), reports)
    decreases |reports|
  {
    if reports != [] {
      OnlyPriorityKeepsOrder(reports[1..], p);
      var r := OnlyPriority(reports, p);
      if reports[0].priority == p {
        assert r[0] == reports[0] && r[1..] == OnlyPriority(reports[1..], p);
      } else if r != [] {
        assert r[0] in reports[1..];
        assert r[0] != reports[0];
      }
    }
  }

  lemma {:induction false} SubsequenceReflexive<T>(xs: seq<T>)
    ensures IsSubsequence(xs, xs)
    decreases |xs|
  {
    if xs != [] {
      SubsequenceReflexive(xs[1..]);
    }
  }

  /** Filtering distributes over concatenation. */
  lemma {:induction false} OnlyPriorityAppend(a: seq<Report>, b: seq<Report>, p: string)
    ensures OnlyPriority(a + b, p) == OnlyPriority(a, p) + OnlyPriority(b, p)
    decreases |a|
  {
    if a != [] {
      assert (a + b)[1..] == a[1..] + b;
      OnlyPriorityAppend(a[1..], b, p);
    } else {
      assert a + b == b;
    }
  }

  /** The length of a tier's filter is that tier's tally. */
  lemma {:induction false} FilterLengthIsCount(reports: seq<Report>, p: string)
    ensures |OnlyPriority(reports, p)| == CountPriority(reports, p)
    decreases |reports|
  {
    if reports != [] {
      var init := reports[..|reports| - 1];
      var last := reports[|reports| - 1];
      assert reports == init + [last];
      OnlyPriorityAppend(init, [last], p);
      FilterLengthIsCount(init, p);
      assert [last][1..] == [];
    }
  }

  datatype Stats = Stats(total: nat, high: nat, medium: nat, low: nat)

  function ComputeStats(reports: seq<Report>): (st: Stats)
    ensures st.total == |reports|
    ensures st.high == |FilterReports(reports, "high")|
    ensures st.medium == |FilterReports(reports, "medium")|
    ensures st.low == |FilterReports(reports, "low")|
  {
    FilterLengthIsCount(reports, "high");
    FilterLengthIsCount(reports, "medium");
    FilterLengthIsCount(reports, "low");
    Stats(|reports|, CountPriority(reports, "high"), CountPriority(reports, "medium"), CountPriority(reports, "low"))
  }

  predicate KnownPriority(r: Report) {
    r.priority in {"high", "medium", "low"}
  }

  function KnownCount(reports: seq<Report>): (n: nat) {
    CountPriority(reports, "high") + CountPriority(reports, "medium") + CountPriority(reports, "low")
  }

  lemma {:induction false} KnownCountBounded(reports: seq<Report>)
    ensures KnownCount(reports) <= |reports|
    ensures KnownCount(reports) == |reports| <==> forall i :: 0 <= i < |reports| ==> KnownPriority(reports[i])
    decreases |reports|
  {
    if reports != [] {
      var init := reports[..|reports| - 1];
      var last := reports[|reports| - 1];
      KnownCountBounded(init);
      assert KnownCount(reports) == KnownCount(init) + (if KnownPriority(last) then 1 else 0);
      if forall i :: 0 <= i < |reports| ==> KnownPriority(reports[i]) {
        forall i | 0 <= i < |init|
          ensures KnownPriority(init[i])
        {
          assert init[i] == reports[i];
        }
      } else {
        var k :| 0 <= k < |reports| && !KnownPriority(reports[k]);
        if k < |init| {
          assert init[k] == reports[k];
        }
      }
    }
  }

  /** The three tallies never exceed the total, and they add up to it exactly
      when every report has one of the three priorities. */
  lemma TalliesBounded(reports: seq<Report>)
    ensures var st := ComputeStats(reports);
            && st.high + st.medium + st.low <= st.total
            && (st.high + st.medium + st.low == st.total <==> forall i :: 0 <= i < |reports| ==> KnownPriority(reports[i]))
  {
    KnownCountBounded(reports);
  }

  // ---------------------------------------------------------------------
  // Lookups

  const GreyClasses: string := "bg-gray-100 text-gray-800 border-gray-300"

  function PriorityColor(priority: string): (c: string)
    ensures c == GreyClasses <==> priority !in {"high", "medium", "low"}
  {
    match priority
    case "high" => "bg-red-100 text-red-800 border-red-300"
    case "medium" => "bg-yellow-100 text-yellow-800 border-yellow-300"
    case "low" => "bg-green-100 text-green-800 border-green-300"
    case _ => GreyClasses
  }

  function PriorityEmoji(priority: string): (e: string)
    ensures e == "⚪" <==> priority !in {"high", "medium", "low"}
  {
    match priority
    case "high" => "🔴"
    case "medium" => "🟡"
    case "low" => "🟢"
    case _ => "⚪"
  }

  function StatusEmoji(status: string): (e: string)
    ensures e == "❓" <==> status !in {"pending", "in-progress", "cleaned"}
  {
    match status
    case "pending" => "⏳"
    case "in-progress" => "🧹"
    case "cleaned" => "✅"
    case _ => "❓"
  }

  /** Each lookup is one-to-one on its known keys. */
  lemma LookupsDistinguishKnownKeys(a: string, b: string)
    requires a != b
    ensures a in {"high", "medium", "low"} && b in {"high", "medium", "low"} ==>
              PriorityColor(a) != PriorityColor(b) && PriorityEmoji(a) != PriorityEmoji(b)
    ensures a in {"pending", "in-progress", "cleaned"} && b in {"pending", "in-progress", "cleaned"} ==>
              StatusEmoji(a) != StatusEmoji(b)
  {
  }

  // ---------------------------------------------------------------------
  // Selection

  /** `selectedReport?.id === report.id` */
  predicate Highlighted(selected: Option<Report>, r: Report) {
    selected.Some? && selected.value.id == r.id
  }

  /** Clicking a card: deselect when it is the selected one, select it
      otherwise. */
  function ClickReport(selected: Option<Report>, clicked: Report): (s': Option<Report>)
    ensures s'.None? <==> Highlighted(selected, clicked)
    ensures s'.Some? ==> s'.value == clicked
  {
    if Highlighted(selected, clicked) then None else Some(clicked)
  }

  /** A click flips the clicked card's highlight and clears every card with
      another id; two clicks on one card from nothing selected return to
      nothing selected. */
  lemma ClickFlipsHighlight(selected: Option<Report>, clicked: Report, other: Report)
    ensures Highlighted(ClickReport(selected, clicked), clicked) <==> !Highlighted(selected, clicked)
    ensures other.id != clicked.id ==> !Highlighted(ClickReport(selected, clicked), other)
    ensures ClickReport(ClickReport(None, clicked), clicked) == None
  {
  }
}

=== FILE: nullable.dfy ===
/** JavaScript's `null` and `undefined` as a value: a field or prop that may
    be missing is an `Option`, and `None` is the missing case. */
module Nullable {

  datatype Option<T> = None | Some(value: T) {

    /** The held value, or `fallback` when nothing is held: the `x || y`
        and `x ?? y` idiom of the source. */
    function OrElse(fallback: T): (r: T)
    {
      if Some? then value else fallback
    }
  }
}
